=== FILE: README.md ===
# ClimaCare air-quality and advice core, in Dafny

ClimaCare is a Raspberry Pi weather station. Every minute it reads a
temperature/humidity sensor, two web services (wind, UV, pollen), a
barometer and a Shinyei-style dust sensor. After 30 minutes it averages
each channel, classifies the day, and derives an AQI category, a pollen
level and a list of advice strings.

This project models the part of that pipeline that is computation rather
than I/O:

- `DustSensor` (dust_sensor.dfy): the `Sensor` class's edge callback
  `_cbf` and `read()`. The callback is a pure step over one `(level, tick)`
  edge on an immutable accumulator, and a stream of edges is folded in
  arrival order. `read()` turns the low and high buckets into the low-pulse
  ratio and the cubic calibration curve, then resets. pigpio's `tickDiff`
  is modelled as subtraction on the unsigned 32-bit microsecond counter,
  wrapping once when the later tick is smaller.
- `UnitConversion` (unit_conversion.dfy): `pcs_to_ugm3`, which refuses a
  negative count and otherwise multiplies by a fixed positive factor.
- `AirQualityIndex` (aqi.dfy): `ugm3_to_aqi` over the seven-row PM2.5
  breakpoint table of the US EPA AQI (the pre-2024 table). Values above
  500.4 clamp to 500. Inside a row the index is linearly interpolated. The
  same file holds the six-way category ladder on the truncated index.
- `AqiSample` (aqi_sample.dfy): `get_aqi_and_pm_values`, which reports the
  saturation sentinel 1114000.62 as AQI 0.0, and one pass of the
  air_quality.py monitor loop, which skips that reading instead.
- `SamplingWindow` (sampling_window.dfy): the 30-minute loop that sums
  twelve channels and divides by 30, and the temperature/humidity retry
  that polls until the answer is not (0, 0).
- `PollenAlert` (pollen.dfy): the Bajo / Medio / Alto pollen level from six
  averaged channels.
- `Recommendations` (recommendations.dfy): the advice list built from the
  two day-profile labels. The base list comes from an if/elif chain and
  the wind list from a second if/elif. The five profile-2 blocks are
  independent. python/recommendations.py and climacare.py:420-449 carry the
  same rules and the same strings.

Python floats are Dafny `real`s. Python exceptions become a `Result`
(`results.dfy`). A negative count in `pcs_to_ugm3` is
`Err(NegativeConcentration)`. A concentration that no breakpoint row
contains is `Err(NoMatchingBreakpoint)`. That covers a negative value and
a value in a gap between rows, such as 12.05. In the code `aqi` is then
never assigned, so `return aqi` raises `UnboundLocalError`.

From a reset, the edges (1, 0), (0, 10), (1, 30) leave 20 low ticks and
10 high ticks: the level-0 edge closes 10 ticks into the high bucket and
the level-1 edge closes 20 into the low bucket (`DustSensor.ExampleBuckets`).

The advice strings are kept exactly as written. That includes the third
"Strong Wind" item, which joins two pieces of advice with a `;` inside one
string.

## Model

| member | source | states |
|---|---|---|
| DustSensor.TickDiff | climacare.py:124 | The elapsed ticks, added to the earlier tick modulo 2^32, give the later tick; a later tick below the earlier one means one wrap of the counter |
| DustSensor.OnEdge | climacare.py:120-139 | The first edge after a reset only arms (start = last = tick) and leaves both buckets alone; a level-0 edge adds the elapsed ticks to the high bucket only, a level-1 edge to the low bucket only, any other level only advances the last tick; buckets never shrink |
| DustSensor.FeedSnoc | climacare.py:120-139 | Folding one more edge is one more callback on the folded state |
| DustSensor.FeedFromReset | climacare.py:120-139 | After a reset, a stream of edges leaves the markers at its first and last ticks, and the low (high) bucket equals the time closed by level-1 (level-0) edges as defined independently over the stream |
| DustSensor.DroppedTime | climacare.py:128-135 | The stream's total span splits exactly into the time closed by level-0 edges, by level-1 edges and by edges of any other level (timeout edges drop their time); so the buckets never exceed the span and equal it when every edge has level 0 or 1 |
| DustSensor.SpanWraps | climacare.py:124-126 | The summed wrapping differences, taken modulo 2^32 from the first tick, land on the last tick |
| DustSensor.ExampleBuckets | climacare.py:120-139 | Edges (1,0), (0,10), (1,30) from reset give 20 low ticks and 10 high ticks |
| DustSensor.SaturatedIsFullRatio | climacare.py:208 | The sentinel 1114000.62 is the calibration cubic at ratio 100 |
| DustSensor.Calibrate | climacare.py:108 | The sensor's cubic calibration curve. It has no contract of its own and is characterised by SaturatedIsFullRatio, CalibrateIncreasing and CalibrateRange |
| DustSensor.CalibrateIncreasing | climacare.py:108 | The calibration cubic is strictly increasing on non-negative ratios |
| DustSensor.CalibrateRange | climacare.py:108 | On [0, 100] the cubic is at least 0.62 and reaches 1114000.62 only at ratio 100 |
| DustSensor.Read | climacare.py:104-118 | read() always resets; with no interval it returns ratio 0 and concentration exactly 0.0; otherwise ratio·interval = 100·low, ratio lies in [0, 100], concentration is the cubic of the ratio, ratio is 100 iff no high time was counted; concentration is never negative |
| DustSensor.ReadSaturated | climacare.py:104-111 | A read returns the sentinel exactly when low time was counted and high time was not |
| DustSensor.SingleEdgeReadsZero | climacare.py:104-139 | One edge after a reset, then a read, gives ratio 0 and concentration 0 |
| UnitConversion.FactorPositive | dataCollectionProcessing.py:143-157 | The particle-mass conversion factor is strictly positive |
| UnitConversion.PcsToUgm3 | dataCollectionProcessing.py:140-159 | A negative count is refused with the negative-concentration error, and only a negative count is; any other count maps to count × factor, which is non-negative and positive for a positive count |
| UnitConversion.RoundTrip | dataCollectionProcessing.py:157 | Dividing by the factor inverts the conversion on non-negative counts, and every non-negative mass concentration is the image of a non-negative count |
| UnitConversion.ZeroAndNegative | dataCollectionProcessing.py:140-157 | 0 maps to 0 and -1 is refused |
| UnitConversion.Linear | dataCollectionProcessing.py:157 | The conversion is additive and homogeneous on non-negative counts |
| UnitConversion.Monotone | dataCollectionProcessing.py:157 | The conversion is strictly increasing on non-negative counts |
| AirQualityIndex.TableShape | climacare.py:179-185 | The seven rows are proper intervals, pairwise disjoint and ascending in both concentration and index, from (0, 0) to (500.4, 500) |
| AirQualityIndex.ScanLastMatch | climacare.py:193-199 | The loop leaves the interpolation of the last row containing C, or the starting value when no row does |
| AirQualityIndex.ScanFinds | climacare.py:193-199 | The loop ends with a value exactly when it started with one or some row contains C |
| AirQualityIndex.Lookup | climacare.py:192-201 | The loop started with `aqi` unassigned yields a value iff some row contains C, and then the interpolation of the last such row |
| AirQualityIndex.LookupUnique | climacare.py:187-201 | On an ascending table the loop finds a value iff some row contains C, and it is that row's interpolation |
| AirQualityIndex.Ugm3ToAqi | climacare.py:179-201 | Above 500.4 the index is 500; otherwise a value exists iff some row contains C and it is that row's interpolation; the only failure is the missing-breakpoint error |
| AirQualityIndex.InterpolateWithinRow | climacare.py:194-199 | Inside a row the formula gives the low index at the low concentration, the high index at the high concentration, and stays within the index band |
| AirQualityIndex.InterpolateMonotone | dataCollectionProcessing.py:190 | Inside a row the formula is non-decreasing in C |
| AirQualityIndex.Ugm3ToAqiBounds | dataCollectionProcessing.py:170-192 | For C ≥ 0 every returned index lies in [0, 500] |
| AirQualityIndex.RowIndexBounds | dataCollectionProcessing.py:170-176 | Every row's index band lies inside [0, 500] |
| AirQualityIndex.Ugm3ToAqiMonotone | dataCollectionProcessing.py:170-190 | Where both values exist the index is non-decreasing in C, across rows as well as inside one |
| AirQualityIndex.FailsExactlyInGaps | climacare.py:187-201 | The conversion fails exactly for C below 0 or strictly between one row's high and the next row's low concentration |
| AirQualityIndex.RowEndpoints | air_quality.py:129-151 | At each row's concentration endpoints the result is exactly that row's index endpoints |
| AirQualityIndex.ExampleFirstRowEnd | climacare.py:179 | 12.0 µg/m³ gives index 50 |
| AirQualityIndex.ExampleSecondRowStart | climacare.py:180 | 12.1 µg/m³ gives index 51 |
| AirQualityIndex.ExampleTop | climacare.py:185-190 | 500.4 and 600 µg/m³ both give 500 |
| AirQualityIndex.ExampleGap | climacare.py:187-201 | 12.05 µg/m³, in the first gap, fails |
| AirQualityIndex.ExampleNegative | climacare.py:187-201 | -1 µg/m³ fails |
| AirQualityIndex.Truncate | dataCollectionProcessing.py:343 | Python's int() on a float truncates toward zero: the result is within one of x, on the side of zero |
| AirQualityIndex.CategoryOfIndex | dataCollectionProcessing.py:343-354 | The ladder on a truncated index gives Hazardous exactly outside [0, 300], and any other category only to integers inside that category's band |
| AirQualityIndex.CategoryBands | dataCollectionProcessing.py:341-354 | Each integer in 0-300 gets exactly the one named category whose band holds it; Hazardous exactly for integers below 0 or above 300 |
| AirQualityIndex.AqiCategory | air_quality.py:186-197 | After truncation an index is Hazardous iff it is at most -1 or at least 301, and Good iff it lies strictly between -1 and 51 |
| AirQualityIndex.CategoryOfConverted | air_quality.py:182-197 | A converted index of at most 300 is never Hazardous, and a clamped one always is |
| AqiSample.ConcentrationToAqi | climacare.py:208-217 | The sentinel gives 0.0; a negative count fails; any other count goes through both conversions; a non-negative count never yields an index outside [0, 500] |
| AqiSample.ZeroConcentration | climacare.py:212-217 | A zero count gives index 0 |
| AqiSample.GetAqiAndPmValues | climacare.py:203-221 | The read resets the sensor; the only possible failure is a table gap; a value lies in [0, 500]; a saturated sensor and an empty interval both give 0.0; in every case the minute's index is the saturation test, `pcs_to_ugm3` and `ugm3_to_aqi` applied to the read concentration |
| AqiSample.ExampleRead | climacare.py:104-108 | 30 low ticks against 70 high ticks read as ratio 30 and 41880.62 particles |
| AqiSample.ExampleConversion | climacare.py:212-217 | 41880.62 particles convert to a mass concentration in the fourth row, whose index lies strictly between 151 and 200 |
| AqiSample.EndToEndExample | dataCollectionProcessing.py:194-212 | 30 low ticks against 70 high ticks give an index strictly between 151 and 200 |
| AqiSample.MonitorAgreesWithMinute | air_quality.py:167-197 | The monitor loop and `get_aqi_and_pm_values` agree: a skipped pass is one the function reports as 0.0, the loop fails exactly when the function fails, and a report carries the index the function returns |
| AqiSample.MonitorStep | air_quality.py:167-197 | A pass is skipped exactly when the sensor was saturated; the only failure is a table gap; a report carries the read concentration, count × factor, the index `ugm3_to_aqi` gives for that mass (in [0, 500]) and that index's category; an unsaturated pass fails exactly when `ugm3_to_aqi` fails on `pcs_to_ugm3` of the read concentration |
| SamplingWindow.AverageWindow | climacare.py:272-343 | After 30 minutes each channel's result is the sum of its 30 readings divided by 30 |
| SamplingWindow.SumBounds | dataCollectionProcessing.py:261-314 | A sum of n readings within [lo, hi] lies within [n·lo, n·hi] |
| SamplingWindow.ConstantWindow | climacare.py:272-343 | 30 equal readings average to that reading |
| SamplingWindow.WindowWithinRange | climacare.py:318-343 | A window average stays within the range of its minute readings |
| SamplingWindow.WindowCategory | dataCollectionProcessing.py:339-354 | Thirty indices in [0, 500] average to an index in [0, 500], whose category is Hazardous iff the average is at least 301 |
| SamplingWindow.PollTemperatureHumidity | climacare.py:277-280 | The retry accepts the first answer that is not (0, 0), after rejecting only (0, 0) answers; it returns none only when every given answer was (0, 0) |
| PollenAlert.TestsMatchBands | climacare.py:458-461 | The two written conditions are "some channel strictly inside its band" and "some channel strictly above its band" over the six-band table |
| PollenAlert.PollenLevel | climacare.py:456-463 | Alto iff some channel is above its band; Medio iff none is above and some is strictly inside; Bajo iff neither |
| PollenAlert.ThresholdIsNeither | climacare.py:458-463 | Alder exactly 80 with all else 0 is Bajo |
| PollenAlert.AboveOutranksInside | climacare.py:458-461 | One channel above its band outranks another inside its band |
| Recommendations.MissingFirstChar | python/recommendations.py:9 | A label lacking the first character of a key does not contain the key |
| Recommendations.RenderAppend | python/recommendations.py:18-33 | Appending lists never removes or reorders earlier items: rendering a concatenation is the concatenation of renderings |
| Recommendations.BaseAdvice | python/recommendations.py:6-16 | The profile-1 chain as written selects exactly the first matching rule of the ordered base table |
| Recommendations.WindAdvice | python/recommendations.py:18-21 | The wind chain as written selects exactly the first matching rule of the wind table |
| Recommendations.WeatherAdvice | python/recommendations.py:23-33 | The profile-2 blocks as written select every matching rule of the ordered weather table, in table order |
| Recommendations.Recommend | python/recommendations.py:4-33 | The advice is the rendering of the base table's first match, then the wind table's first match, then every matching profile-2 rule in table order |
| Recommendations.RecommendFollowsRules | python/recommendations.py:4-33 | The result is the base selection, then the wind selection, then the profile-2 selections, each list whole; its length is the sum of theirs |
| Recommendations.WindExclusive | python/recommendations.py:18-21 | The Windy list iff the label contains "Windy"; the Strong Wind list iff it contains "Strong Wind" but not "Windy"; neither otherwise |
| Recommendations.WeatherBlocksIndependent | python/recommendations.py:24-33 | Each profile-2 list is present iff its own key occurs, whatever the other keys do |
| Recommendations.WeatherBlocksAtMostFive | python/recommendations.py:24-33 | The profile-2 blocks add at most five lists |
| Recommendations.ChainsPickAtMostOne | python/recommendations.py:6-21 | At most one base list and at most one wind list are chosen |
| Recommendations.HotHumidLabel | python/recommendations.py:13-16 | "Hot - High Humidity" selects the hot-and-humid list, not the humid one |
| Recommendations.HotHumidListSize | python/recommendations.py:14 | The hot-and-humid list has five items |
| Recommendations.CompoundLabelNoBase | python/recommendations.py:6-20 | "Cold - Windy" gets no base list and the Windy list |
| Recommendations.ScriptBase | python/recommendations.py:1-10 | The script's profile-1 label selects the cold-and-humid list |
| Recommendations.ScriptWind | python/recommendations.py:1-21 | The script's profile-1 label selects no wind list |
| Recommendations.ScriptCategory2 | python/recommendations.py:2-33 | The script's profile-2 label selects only the moderate-AQI list |
| Recommendations.ScriptOutput | python/recommendations.py:1-36 | The script prints the cold-and-humid list followed by the moderate-AQI list |

## Left out

- Hardware I/O: the pigpio connection, `set_mode`, callback registration and `pi.stop()`. The gpio number that `read()` returns as the first element of its tuple is not modelled either.
- Concurrency: pigpio calls `_cbf` from its own thread. The model applies edges one at a time, in arrival order.
- `pigpio.tickDiff` is not part of this model. It is assumed to be the 32-bit wrapping subtraction described above.
- IEEE double rounding. All arithmetic is exact on reals, so the sentinel test `c == 1114000.62` is exact equality of reals. `math.pi` is the decimal 3.141592653589793. The general conversion lemmas need only the mass factor's positivity and linearity; the two lemmas about 30 low against 70 high ticks (`AqiSample.ExampleConversion`, `AqiSample.EndToEndExample`) use its value, and so the decimal value of π.
- The DHT sensor, the weatherstack and open-meteo HTTP calls, and the barometer subprocess with its `float(pressure[:-4])` parsing. Their values are inputs to the window. The unguarded `sumPressure += None` after a failed pressure read is one of these I/O failures.
- Python `None` is the model's `Option`. Exceptions are its `Result`: `ValueError` and `UnboundLocalError`.
- The sleeps, the infinite outer `while True`, and the printing. One window is a function of its 30 given minutes. A failed `get_aqi_and_pm_values` would end the Python loop; the window takes already-computed per-minute readings instead.
- SamplingWindow.PollTemperatureHumidity: the source polls forever, but the model consumes a finite sequence of answers and reports none when all of them were (0, 0).
- pandas CSV loading and the scikit-learn decision trees that produce the two day-profile labels. The labels are opaque strings.
- InfluxDB writes of the results, the pollen level and each advice string.

=== FILE: aqi.dfy ===
/** `ugm3_to_aqi` and the AQI category ladder.

    The concentration is mapped onto the US EPA PM2.5 index by linear
    interpolation inside the breakpoint row that contains it (the pre-2024
    PM2.5 table of the EPA Technical Assistance Document for the Reporting
    of Daily Air Quality).  Values above 500.4 clamp to 500.  The rows leave
    gaps (12.0 to 12.1, 35.4 to 35.5, ...) and do not cover negative values;
    for such an input the source never assigns `aqi` and `return aqi` raises,
    which the model reports as `Err(NoMatchingBreakpoint)`. */
module AirQualityIndex {
  import opened Results

  /** One row of the breakpoint table: concentration band and index band. */
  datatype Breakpoint = Breakpoint(cLow: real, cHigh: real, iLow: real, iHigh: real)

  /** The seven rows, in the order the loop visits them. */
  const Pm25Table: seq<Breakpoint> := [
    Breakpoint(0.0, 12.0, 0.0, 50.0),
    Breakpoint(12.1, 35.4, 51.0, 100.0),
    Breakpoint(35.5, 55.4, 101.0, 150.0),
    Breakpoint(55.5, 150.4, 151.0, 200.0),
    Breakpoint(150.5, 250.4, 201.0, 300.0),
    Breakpoint(250.5, 350.4, 301.0, 400.0),
    Breakpoint(350.5, 500.4, 401.0, 500.0)
  ]

  /** Above this concentration the index is clamped. */
  const ClampConcentration: real := 500.4

  /** The index reported for clamped concentrations. */
  const MaxIndex: real := 500.0

  /** A row contains a concentration when it lies between the row's two
      concentration ends, both inclusive. */
  predicate InRow(b: Breakpoint, c: real) {
    b.cLow <= c <= b.cHigh
  }

  /** A row whose bands are proper intervals, so interpolation is defined
      and rises with the concentration. */
  predicate RowWellFormed(b: Breakpoint) {
    b.cLow < b.cHigh && b.iLow <= b.iHigh
  }

  predicate TableWellFormed(rows: seq<Breakpoint>) {
    forall k :: 0 <= k < |rows| ==> RowWellFormed(rows[k])
  }

  /** Rows are ascending and pairwise disjoint in both bands: every row lies
      strictly above every earlier row, so at most one row contains a value. */
  predicate Ascending(rows: seq<Breakpoint>) {
    forall j, k :: 0 <= j < k < |rows| ==>
      rows[j].cHigh < rows[k].cLow && rows[j].iHigh < rows[k].iLow
  }

  /** The interpolation formula of one row. */
  function Interpolate(b: Breakpoint, c: real): real
    requires RowWellFormed(b)
  {
    (b.iHigh - b.iLow) / (b.cHigh - b.cLow) * (c - b.cLow) + b.iLow
  }

  /** The fixed table is well formed and ascending. */
  lemma TableShape()
    ensures |Pm25Table| == 7
    ensures TableWellFormed(Pm25Table)
    ensures Ascending(Pm25Table)
    ensures Pm25Table[0].cLow == 0.0 && Pm25Table[0].iLow == 0.0
    ensures Pm25Table[6].cHigh == ClampConcentration && Pm25Table[6].iHigh == MaxIndex
  {
  }

  /** The loop body over the remaining rows: a row that contains `c`
      overwrites `aqi`; a row that does not leaves it as it was. */
  function Scan(rows: seq<Breakpoint>, c: real, aqi: Option<real>): Option<real>
    requires TableWellFormed(rows)
    decreases |rows|
  {
    if |rows| == 0 then aqi
    else
      var next := if InRow(rows[0], c) then Some(Interpolate(rows[0], c)) else aqi;
      Scan(rows[1..], c, next)
  }

  /** The scan leaves the value of the last row that contains `c`, or the
      starting value when no row does. */
  lemma {:induction false} ScanLastMatch(rows: seq<Breakpoint>, c: real, aqi: Option<real>)
    requires TableWellFormed(rows)
    ensures (forall k :: 0 <= k < |rows| ==> !InRow(rows[k], c)) ==> Scan(rows, c, aqi) == aqi
    ensures forall k :: 0 <= k < |rows| && InRow(rows[k], c)
                        && (forall j :: k < j < |rows| ==> !InRow(rows[j], c))
                        ==> Scan(rows, c, aqi) == Some(Interpolate(rows[k], c))
    decreases |rows|
  {
    if |rows| > 0 {
      var next := if InRow(rows[0], c) then Some(Interpolate(rows[0], c)) else aqi;
      ScanLastMatch(rows[1..], c, next);
      forall k | 0 <= k < |rows| && InRow(rows[k], c)
                 && (forall j :: k < j < |rows| ==> !InRow(rows[j], c))
        ensures Scan(rows, c, aqi) == Some(Interpolate(rows[k], c))
      {
        if k > 0 {
          assert rows[1..][k - 1] == rows[k];
          forall j | k - 1 < j < |rows| - 1
            ensures !InRow(rows[1..][j], c)
          {
            assert rows[1..][j] == rows[j + 1];
          }
        } else {
          forall j | 0 <= j < |rows| - 1
            ensures !InRow(rows[1..][j], c)
          {
            assert rows[1..][j] == rows[j + 1];
          }
        }
      }
      if forall k :: 0 <= k < |rows| ==> !InRow(rows[k], c) {
        forall j | 0 <= j < |rows| - 1
          ensures !InRow(rows[1..][j], c)
        {
          assert rows[1..][j] == rows[j + 1];
        }
      }
    }
  }

  /** The scan ends with a value exactly when it started with one or some
      row contains `c`. */
  lemma {:induction false} ScanFinds(rows: seq<Breakpoint>, c: real, aqi: Option<real>)
    requires TableWellFormed(rows)
    ensures Scan(rows, c, aqi).Some? <==> aqi.Some? || exists k :: 0 <= k < |rows| && InRow(rows[k], c)
    decreases |rows|
  {
    if |rows| > 0 {
      var next := if InRow(rows[0], c) then Some(Interpolate(rows[0], c)) else aqi;
      ScanFinds(rows[1..], c, next);
      if exists k :: 0 <= k < |rows| && InRow(rows[k], c) {
        var k :| 0 <= k < |rows| && InRow(rows[k], c);
        if k > 0 {
          assert rows[1..][k - 1] == rows[k];
        }
      }
      if exists k :: 0 <= k < |rows| - 1 && InRow(rows[1..][k], c) {
        var k :| 0 <= k < |rows| - 1 && InRow(rows[1..][k], c);
        assert rows[1..][k] == rows[k + 1];
      }
    }
  }

  /** The whole loop, started with `aqi` unassigned: it yields a value
      exactly when some row contains `c`, and then the interpolation of the
      last such row. */
  function Lookup(rows: seq<Breakpoint>, c: real): (r: Option<real>)
    requires TableWellFormed(rows)
    ensures r.Some? <==> exists k :: 0 <= k < |rows| && InRow(rows[k], c)
    ensures forall k :: 0 <= k < |rows| && InRow(rows[k], c)
                        && (forall j :: k < j < |rows| ==> !InRow(rows[j], c))
                        ==> r == Some(Interpolate(rows[k], c))
  {
    ScanFinds(rows, c, None);
    ScanLastMatch(rows, c, None);
    Scan(rows, c, None)
  }

  /** On an ascending table at most one row contains `c`, so the loop finds
      a value exactly when some row contains `c`, and it is that row's. */
  lemma LookupUnique(rows: seq<Breakpoint>, c: real)
    requires TableWellFormed(rows) && Ascending(rows)
    ensures Lookup(rows, c).Some? <==> exists k :: 0 <= k < |rows| && InRow(rows[k], c)
    ensures forall k :: 0 <= k < |rows| && InRow(rows[k], c) ==>
              Lookup(rows, c) == Some(Interpolate(rows[k], c))
  {
    ScanLastMatch(rows, c, None);
    forall k | 0 <= k < |rows| && InRow(rows[k], c)
      ensures Lookup(rows, c) == Some(Interpolate(rows[k], c))
    {
      forall j | k < j < |rows|
        ensures !InRow(rows[j], c)
      {
        assert rows[k].cHigh < rows[j].cLow;
      }
    }
  }

  /** Some row of the table contains `c`. */
  predicate Covered(c: real) {
    exists k :: 0 <= k < |Pm25Table| && InRow(Pm25Table[k], c)
  }

  /** `ugm3_to_aqi`. */
  function Ugm3ToAqi(c: real): (r: Result<real>)
    // above the table the index is clamped to 500
    ensures c > ClampConcentration ==> r == Ok(MaxIndex)
    // otherwise a value exists exactly when some row contains `c` ...
    ensures c <= ClampConcentration ==> (r.Ok? <==> Covered(c))
    // ... and it is that row's interpolation
    ensures forall k :: 0 <= k < |Pm25Table| && c <= ClampConcentration && InRow(Pm25Table[k], c) ==>
              r == Ok(Interpolate(Pm25Table[k], c))
    ensures r.Err? ==> r.error == NoMatchingBreakpoint
  {
    TableShape();
    if c > ClampConcentration then Ok(MaxIndex)
    else
      LookupUnique(Pm25Table, c);
      match Lookup(Pm25Table, c)
      case Some(aqi) => Ok(aqi)
      case None => Err(NoMatchingBreakpoint)
  }

  /** Inside a row the interpolation runs from the row's low index at its
      low concentration to its high index at its high concentration, and
      never leaves the index band. */
  lemma InterpolateWithinRow(b: Breakpoint, c: real)
    requires RowWellFormed(b) && InRow(b, c)
    ensures Interpolate(b, b.cLow) == b.iLow
    ensures Interpolate(b, b.cHigh) == b.iHigh
    ensures b.iLow <= Interpolate(b, c) <= b.iHigh
  {
    var slope := (b.iHigh - b.iLow) / (b.cHigh - b.cLow);
    Slope(b.iHigh - b.iLow, b.cHigh - b.cLow);
    ScaleBounds(slope, c - b.cLow, b.cHigh - b.cLow);
    assert Interpolate(b, c) == slope * (c - b.cLow) + b.iLow;
    assert Interpolate(b, b.cLow) == slope * 0.0 + b.iLow;
    assert Interpolate(b, b.cHigh) == slope * (b.cHigh - b.cLow) + b.iLow;
  }

  /** A non-negative rise over a positive run is a non-negative slope that
      gives back the rise over the run. */
  lemma Slope(rise: real, run: real)
    requires 0.0 <= rise && 0.0 < run
    ensures rise / run >= 0.0
    ensures rise / run * run == rise
  {
  }

  /** Scaling by a non-negative factor keeps `0 <= x <= y` ordered. */
  lemma ScaleBounds(k: real, x: real, y: real)
    requires 0.0 <= k && 0.0 <= x <= y
    ensures 0.0 <= k * x <= k * y
  {
    assert k * y - k * x == k * (y - x);
  }

  /** Inside a row the interpolation is non-decreasing. */
  lemma InterpolateMonotone(b: Breakpoint, c1: real, c2: real)
    requires RowWellFormed(b) && c1 <= c2
    ensures Interpolate(b, c1) <= Interpolate(b, c2)
  {
    var slope := (b.iHigh - b.iLow) / (b.cHigh - b.cLow);
    Slope(b.iHigh - b.iLow, b.cHigh - b.cLow);
    ScaleBounds(slope, 0.0, c2 - c1);
    assert Interpolate(b, c2) - Interpolate(b, c1) == slope * (c2 - c1);
  }

  /** Every index the function returns for a non-negative concentration
      lies in [0, 500]. */
  lemma Ugm3ToAqiBounds(c: real)
    requires 0.0 <= c
    ensures Ugm3ToAqi(c).Ok? ==> 0.0 <= Ugm3ToAqi(c).value <= MaxIndex
  {
    TableShape();
    if c <= ClampConcentration && Covered(c) {
      var k :| 0 <= k < |Pm25Table| && InRow(Pm25Table[k], c);
      var row := Pm25Table[k];
      InterpolateWithinRow(row, c);
      assert Ugm3ToAqi(c).value == Interpolate(row, c);
      RowIndexBounds(k);
    }
  }

  /** Every row's index band lies inside [0, 500]. */
  lemma RowIndexBounds(k: int)
    requires 0 <= k < |Pm25Table|
    ensures 0.0 <= Pm25Table[k].iLow && Pm25Table[k].iHigh <= MaxIndex
  {
  }

  /** Wherever both values exist the index is non-decreasing in the
      concentration, across rows as well as inside one, because every row's
      high index lies below the next row's low index. */
  lemma Ugm3ToAqiMonotone(c1: real, c2: real)
    requires c1 <= c2
    requires Ugm3ToAqi(c1).Ok? && Ugm3ToAqi(c2).Ok?
    ensures Ugm3ToAqi(c1).value <= Ugm3ToAqi(c2).value
  {
    TableShape();
    if c1 > ClampConcentration {
    } else {
      var j :| 0 <= j < |Pm25Table| && InRow(Pm25Table[j], c1);
      InterpolateWithinRow(Pm25Table[j], c1);
      if c2 > ClampConcentration {
        assert Pm25Table[j].iHigh <= Pm25Table[6].iHigh;
      } else {
        var k :| 0 <= k < |Pm25Table| && InRow(Pm25Table[k], c2);
        InterpolateWithinRow(Pm25Table[k], c2);
        if j == k {
          InterpolateMonotone(Pm25Table[j], c1, c2);
        } else {
          assert j < k;
        }
      }
    }
  }

  /** A gap of the table: below its first row, or strictly between one
      row's high concentration and the next row's low concentration. */
  predicate InGap(c: real) {
    c < Pm25Table[0].cLow
    || exists k :: 0 <= k < |Pm25Table| - 1 && Pm25Table[k].cHigh < c < Pm25Table[k + 1].cLow
  }

  /** The function fails exactly on the gaps of the table. */
  lemma FailsExactlyInGaps(c: real)
    ensures Ugm3ToAqi(c).Err? <==> InGap(c)
  {
    TableShape();
    if InGap(c) {
      if c >= Pm25Table[0].cLow {
        var g :| 0 <= g < |Pm25Table| - 1 && Pm25Table[g].cHigh < c < Pm25Table[g + 1].cLow;
        forall k | 0 <= k < |Pm25Table|
          ensures !InRow(Pm25Table[k], c)
        {
          if k <= g {
            assert Pm25Table[k].cHigh <= Pm25Table[g].cHigh;
          } else {
            assert Pm25Table[g + 1].cLow <= Pm25Table[k].cLow;
          }
        }
      }
    } else if c <= ClampConcentration {
      var k := 0;
      while k < |Pm25Table| - 1 && Pm25Table[k].cHigh < c
        invariant 0 <= k < |Pm25Table|
        invariant Pm25Table[k].cLow <= c
      {
        k := k + 1;
      }
      assert InRow(Pm25Table[k], c);
    }
  }

  /** At each row's concentration endpoints the function returns exactly
      that row's index endpoints. */
  lemma RowEndpoints(k: int)
    requires 0 <= k < |Pm25Table|
    ensures Ugm3ToAqi(Pm25Table[k].cLow) == Ok(Pm25Table[k].iLow)
    ensures Ugm3ToAqi(Pm25Table[k].cHigh) == Ok(Pm25Table[k].iHigh)
  {
    TableShape();
    var row := Pm25Table[k];
    assert InRow(row, row.cLow) && InRow(row, row.cHigh);
    InterpolateWithinRow(row, row.cLow);
  }

  /** The first row ends at index 50 ... */
  lemma ExampleFirstRowEnd()
    ensures Ugm3ToAqi(12.0) == Ok(50.0)
  {
    RowEndpoints(0);
  }

  /** ... and the second starts at 51, so the index jumps across the gap. */
  lemma ExampleSecondRowStart()
    ensures Ugm3ToAqi(12.1) == Ok(51.0)
  {
    RowEndpoints(1);
  }

  /** The top of the table and a value above it both give 500. */
  lemma ExampleTop()
    ensures Ugm3ToAqi(500.4) == Ok(500.0)
    ensures Ugm3ToAqi(600.0) == Ok(500.0)
  {
    RowEndpoints(6);
  }

  /** The gap value 12.05 fails. */
  lemma ExampleGap()
    ensures Ugm3ToAqi(12.05) == Err(NoMatchingBreakpoint)
  {
    FailsExactlyInGaps(12.05);
    assert Pm25Table[0].cHigh < 12.05 < Pm25Table[1].cLow;
  }

  /** A negative concentration fails. */
  lemma ExampleNegative()
    ensures Ugm3ToAqi(-1.0) == Err(NoMatchingBreakpoint)
  {
    FailsExactlyInGaps(-1.0);
  }

  /** The six named levels of the index. */
  datatype Category =
    | Good
    | Moderate
    | UnhealthyForSensitiveGroups
    | Unhealthy
    | VeryUnhealthy
    | Hazardous
  {
    /** The text the program prints or stores. */
    function Label(): string {
      match this
      case Good => "Good"
      case Moderate => "Moderate"
      case UnhealthyForSensitiveGroups => "Unhealthy for sensitive groups"
      case Unhealthy => "Unhealthy"
      case VeryUnhealthy => "Very unhealthy"
      case Hazardous => "Hazardous"
    }
  }

  /** Python's `int()` on a float: truncation toward zero. */
  function Truncate(x: real): (n: int)
    ensures 0.0 <= x ==> n as real <= x < n as real + 1.0
    ensures x < 0.0 ==> n as real - 1.0 < x <= n as real
  {
    if x >= 0.0 then x.Floor else -((-x).Floor)
  }

  /** The if/elif ladder on an already truncated index: Hazardous exactly
      outside [0, 300], and any other category only inside its own band. */
  function CategoryOfIndex(n: int): (cat: Category)
    ensures cat == Hazardous <==> n < 0 || n > 300
    ensures cat != Hazardous ==> Band(cat).0 <= n <= Band(cat).1
  {
    if 0 <= n <= 50 then Good
    else if 51 <= n <= 100 then Moderate
    else if 101 <= n <= 150 then UnhealthyForSensitiveGroups
    else if 151 <= n <= 200 then Unhealthy
    else if 201 <= n <= 300 then VeryUnhealthy
    else Hazardous
  }

  /** The inclusive integer band of each named category below Hazardous. */
  function Band(cat: Category): (int, int)
    requires cat != Hazardous
  {
    match cat
    case Good => (0, 50)
    case Moderate => (51, 100)
    case UnhealthyForSensitiveGroups => (101, 150)
    case Unhealthy => (151, 200)
    case VeryUnhealthy => (201, 300)
  }

  /** The ladder assigns each integer the one category whose band holds it,
      and Hazardous exactly to integers outside [0, 300]. */
  lemma CategoryBands(n: int, cat: Category)
    ensures cat != Hazardous ==> (CategoryOfIndex(n) == cat <==> Band(cat).0 <= n <= Band(cat).1)
    ensures CategoryOfIndex(n) == Hazardous <==> n < 0 || n > 300
  {
  }

  /** The category the program reports for an averaged or current index. */
  function AqiCategory(aqi: real): (cat: Category)
    ensures cat == Hazardous <==> aqi <= -1.0 || aqi >= 301.0
    ensures cat == Good <==> -1.0 < aqi < 51.0
  {
    CategoryOfIndex(Truncate(aqi))
  }

  /** A converted index of at most 300 is never Hazardous, and the clamped
      index 500 always is. */
  lemma CategoryOfConverted(c: real)
    requires 0.0 <= c && Ugm3ToAqi(c).Ok?
    ensures Ugm3ToAqi(c).value <= 300.0 ==> AqiCategory(Ugm3ToAqi(c).value) != Hazardous
    ensures c > ClampConcentration ==> AqiCategory(Ugm3ToAqi(c).value) == Hazardous
  {
    Ugm3ToAqiBounds(c);
  }
}

=== FILE: aqi_sample.dfy ===
/** One dust-sensor sample pushed through the whole chain: `read()`, the
    saturation test, `pcs_to_ugm3` and `ugm3_to_aqi`.

    climacare.py and dataCollectionProcessing.py do this in
    `get_aqi_and_pm_values`, which reports a saturated reading as AQI 0.0;
    the `__main__` loop of air_quality.py does it inline, skips a saturated
    reading altogether and prints the category of the result. */
module AqiSample {
  import opened Results
  import opened DustSensor
  import opened UnitConversion
  import opened AirQualityIndex

  /** The part of `get_aqi_and_pm_values` after its read. */
  function ConcentrationToAqi(conc: real): (r: Result<real>)
    // the saturation sentinel is reported as 0.0, not propagated
    ensures conc == Saturated ==> r == Ok(0.0)
    // any other value goes through both conversions
    ensures conc != Saturated && conc < 0.0 ==> r == Err(NegativeConcentration)
    ensures conc != Saturated && 0.0 <= conc ==> r == Ugm3ToAqi(PcsToUgm3(conc).value)
    // a non-negative concentration never yields an index outside [0, 500]
    ensures 0.0 <= conc && r.Ok? ==> 0.0 <= r.value <= MaxIndex
  {
    if conc == Saturated then Ok(0.0)
    else
      var ugm3 :- PcsToUgm3(conc);
      Ugm3ToAqiBounds(ugm3);
      Ugm3ToAqi(ugm3)
  }

  /** A zero concentration is the bottom of the first row: index 0. */
  lemma ZeroConcentration()
    ensures ConcentrationToAqi(0.0) == Ok(0.0)
  {
    RowEndpoints(0);
  }

  /** What `get_aqi_and_pm_values` returns, with the state its read leaves. */
  datatype MinuteAqi = MinuteAqi(aqi: Result<real>, next: Accumulator)

  /** `get_aqi_and_pm_values`: read the accumulator and convert. */
  function GetAqiAndPmValues(a: Accumulator): (r: MinuteAqi)
    // the read always resets the accumulator
    ensures r.next == Reset()
    // a read never yields a negative concentration, so the only failure
    // left is a concentration that falls in a gap of the breakpoint table
    ensures r.aqi.Err? ==> r.aqi.error == NoMatchingBreakpoint
    ensures r.aqi.Ok? ==> 0.0 <= r.aqi.value <= MaxIndex
    // a saturated sensor (all low time, no high time) reports 0.0
    ensures a.lowTicks > 0 && a.highTicks == 0 ==> r.aqi == Ok(0.0)
    // so does an accumulator that recorded no interval at all
    ensures a.lowTicks + a.highTicks == 0 ==> r.aqi == Ok(0.0)
    // otherwise the index is the table's index for the read's mass
    // concentration, and the call fails exactly when the table has no row
    ensures r.aqi == ConcentrationToAqi(Read(a).conc)
  {
    var out := Read(a);
    ReadSaturated(a);
    ZeroConcentration();
    assert 0.0 <= out.conc;
    var aqi := ConcentrationToAqi(out.conc);
    assert aqi.Ok? ==> 0.0 <= aqi.value <= MaxIndex;
    assert aqi.Err? ==> aqi.error == NoMatchingBreakpoint;
    MinuteAqi(aqi, out.next)
  }

  /** Reading 30 low ticks against 70 high ticks is a 30 % ratio and 41880.62 particles per 0.01 cubic foot. */
  lemma ExampleRead(m: Marks)
    ensures Read(Accumulator(m, 30, 70)).ratio == 30.0
    ensures Read(Accumulator(m, 30, 70)).conc == 41880.62
  {
  }

  /** The conversion half: 41880.62 particles per 0.01 cubic foot is a mass
      concentration inside the fourth row of the table, and its index lies
      strictly inside that row's index band. */
  lemma ExampleConversion()
    ensures 55.5 < PcsToUgm3(41880.62).value < 150.4
    ensures ConcentrationToAqi(41880.62).Ok?
    ensures 151.0 < ConcentrationToAqi(41880.62).value < 200.0
  {
    var u := PcsToUgm3(41880.62).value;
    assert 55.5 < u < 150.4;
    var row := Pm25Table[3];
    assert InRow(row, u);
    assert Ugm3ToAqi(u) == Ok(Interpolate(row, u));
    var v := Interpolate(row, u);
    assert v == (200.0 - 151.0) / (150.4 - 55.5) * (u - 55.5) + 151.0;
    assert 151.0 < v < 200.0 by {
      assert (200.0 - 151.0) / (150.4 - 55.5) > 0.0;
      assert u - 55.5 > 0.0;
      assert u - 55.5 < 150.4 - 55.5;
      assert (200.0 - 151.0) / (150.4 - 55.5) * (150.4 - 55.5) == 49.0;
    }
  }

  /** 30 low ticks against 70 high ticks, end to end: the minute's index
      lies strictly inside the fourth row's band (151 to 200). */
  lemma EndToEndExample(m: Marks)
    ensures GetAqiAndPmValues(Accumulator(m, 30, 70)).aqi.Ok?
    ensures 151.0 < GetAqiAndPmValues(Accumulator(m, 30, 70)).aqi.value < 200.0
  {
    ExampleRead(m);
    ExampleConversion();
  }

  /** What the air_quality.py loop prints for one reading it does not skip. */
  datatype Report = Report(conc: real, ugm3: real, aqi: real, category: Category)

  /** One pass of the air_quality.py `__main__` loop: a saturated reading
      is skipped (`continue`); otherwise both conversions run and the index
      is given its category. */
  function MonitorStep(a: Accumulator): (r: Result<Option<Report>>)
    // the pass is skipped exactly when the sensor was saturated
    ensures r == Ok(None) <==> a.lowTicks > 0 && a.highTicks == 0
    // the only failure is a gap of the breakpoint table
    ensures r.Err? ==> r.error == NoMatchingBreakpoint
    // a report carries a consistent chain of values
    ensures r.Ok? && r.value.Some? ==>
              var rep := r.value.value;
              rep.conc == Read(a).conc
              && rep.ugm3 == rep.conc * Factor
              && 0.0 <= rep.aqi <= MaxIndex
              && rep.category == AqiCategory(rep.aqi)
    // the reported index is the table's index for that mass concentration
    ensures r.Ok? && r.value.Some? ==> Ugm3ToAqi(r.value.value.ugm3) == Ok(r.value.value.aqi)
    // an unsaturated pass fails exactly when the table has no row for it
    ensures Read(a).conc != Saturated ==> (r.Err? <==> Ugm3ToAqi(PcsToUgm3(Read(a).conc).value).Err?)
  {
    var out := Read(a);
    ReadSaturated(a);
    if out.conc == Saturated then Ok(None)
    else
      // a read never reports a negative concentration, so this conversion
      // cannot raise here
      var ugm3 := PcsToUgm3(out.conc).value;
      var aqi :- Ugm3ToAqi(ugm3);
      Ugm3ToAqiBounds(ugm3);
      Ok(Some(Report(out.conc, ugm3, aqi, AqiCategory(aqi))))
  }

  /** The monitor loop and `get_aqi_and_pm_values` agree on every reading
      they both convert: the loop skips exactly the readings the function
      reports as 0.0 by the sentinel, and otherwise fails when the function
      fails and reports the index the function returns. */
  lemma MonitorAgreesWithMinute(a: Accumulator)
    ensures MonitorStep(a) == Ok(None) ==> GetAqiAndPmValues(a).aqi == Ok(0.0)
    ensures MonitorStep(a).Err? <==> GetAqiAndPmValues(a).aqi.Err?
    ensures MonitorStep(a).Ok? && MonitorStep(a).value.Some? ==>
              GetAqiAndPmValues(a).aqi == Ok(MonitorStep(a).value.value.aqi)
  {
    var conc := Read(a).conc;
    var r := MonitorStep(a);
    var m := GetAqiAndPmValues(a);
    ReadSaturated(a);
    if conc != Saturated {
      var u := PcsToUgm3(conc).value;
      assert m.aqi == Ugm3ToAqi(u);
      assert r.Ok? ==> r.value.Some? && r.value.value.ugm3 == u;
    }
  }
}

=== FILE: dust_sensor.dfy ===
/** The pulse accumulator and calibration of the duty-cycle dust sensor
    (the `Sensor` class, whose `read` and `_cbf` are textually the same in
    climacare.py, dataCollectionProcessing.py and air_quality.py).

    The sensor driver calls `_cbf(gpio, level, tick)` on every edge of the
    sensor's output pin.  The first edge after construction or after a
    `read()` only arms the accumulator; every later edge adds the ticks
    elapsed since the previous edge to the "high" bucket (level 0) or the
    "low" bucket (level 1).  `read()` turns the two buckets into the
    low-pulse occupancy ratio and a calibrated concentration, then resets.
    The driver callback is modelled as a pure step over one edge; a stream
    of edges is folded in arrival order. */
module DustSensor {

  /** pigpio ticks are microseconds held in an unsigned 32-bit counter. */
  const TickModulus: int := 0x1_0000_0000

  type Tick = t: int | 0 <= t < TickModulus

  /** Ticks elapsed from `earlier` to `later` on the wrapping counter: the
      difference, with one wrap-around added back when it is negative. */
  function TickDiff(earlier: Tick, later: Tick): (d: Tick)
    ensures (earlier + d) % TickModulus == later
    ensures earlier <= later ==> d == later - earlier
    ensures later < earlier ==> d == TickModulus - (earlier - later)
  {
    if later - earlier < 0 then later - earlier + TickModulus else later - earlier
  }

  /** One callback: the pin level (0 falling edge, 1 rising edge, anything
      else a watchdog timeout) and the tick at which it happened. */
  datatype Edge = Edge(level: int, tick: Tick)

  /** `_start_tick` and `_last_tick`, which are both `None` or both set. */
  datatype Marks = Unarmed | Armed(start: Tick, last: Tick)

  /** The mutable fields of `Sensor`: the two markers and the two buckets. */
  datatype Accumulator = Accumulator(marks: Marks, lowTicks: nat, highTicks: nat)

  /** The state after construction and after every `read()`. */
  function Reset(): Accumulator {
    Accumulator(Unarmed, 0, 0)
  }

  /** `_cbf`: one edge event. */
  function OnEdge(a: Accumulator, e: Edge): (r: Accumulator)
    // every edge leaves the accumulator armed with `e.tick` as the last tick
    ensures r.marks.Armed? && r.marks.last == e.tick
    // the first edge only arms: start = last = tick, buckets untouched
    ensures a.marks.Unarmed? ==>
              r.marks.start == e.tick && r.lowTicks == a.lowTicks && r.highTicks == a.highTicks
    // later edges keep the start tick
    ensures a.marks.Armed? ==> r.marks.start == a.marks.start
    // a falling edge adds the elapsed ticks to the high bucket only
    ensures a.marks.Armed? && e.level == 0 ==>
              r.highTicks == a.highTicks + TickDiff(a.marks.last, e.tick) && r.lowTicks == a.lowTicks
    // a rising edge adds the elapsed ticks to the low bucket only
    ensures a.marks.Armed? && e.level == 1 ==>
              r.lowTicks == a.lowTicks + TickDiff(a.marks.last, e.tick) && r.highTicks == a.highTicks
    // any other level advances the last tick and drops the elapsed time
    ensures e.level != 0 && e.level != 1 ==> r.lowTicks == a.lowTicks && r.highTicks == a.highTicks
    // between resets the buckets only grow
    ensures a.lowTicks <= r.lowTicks && a.highTicks <= r.highTicks
  {
    match a.marks
    case Unarmed =>
      a.(marks := Armed(e.tick, e.tick))
    case Armed(start, last) =>
      var ticks := TickDiff(last, e.tick);
      var moved := a.(marks := Armed(start, e.tick));
      if e.level == 0 then moved.(highTicks := a.highTicks + ticks)
      else if e.level == 1 then moved.(lowTicks := a.lowTicks + ticks)
      else moved
  }

  /** The callbacks for a stream of edges, applied in arrival order. */
  function Feed(a: Accumulator, edges: seq<Edge>): Accumulator
    decreases |edges|
  {
    if |edges| == 0 then a else Feed(OnEdge(a, edges[0]), edges[1..])
  }

  /** Reference definition of a bucket: the sum, over every edge but the
      first, of the ticks since the previous edge, counting only the edges
      whose level is `level`. */
  function LevelTime(edges: seq<Edge>, level: int): nat
    decreases |edges|
  {
    if |edges| < 2 then 0
    else
      var n := |edges|;
      LevelTime(edges[..n - 1], level)
      + (if edges[n - 1].level == level then TickDiff(edges[n - 2].tick, edges[n - 1].tick) else 0)
  }

  /** Sum, over every edge but the first, of the ticks since the previous edge,
      whatever its level. */
  function SpanTime(edges: seq<Edge>): nat
    decreases |edges|
  {
    if |edges| < 2 then 0
    else
      var n := |edges|;
      SpanTime(edges[..n - 1]) + TickDiff(edges[n - 2].tick, edges[n - 1].tick)
  }

  /** Sum of the ticks closed by edges whose level is neither 0 nor 1: the
      time the callback counts in neither bucket. */
  function OtherTime(edges: seq<Edge>): nat
    decreases |edges|
  {
    if |edges| < 2 then 0
    else
      var n := |edges|;
      OtherTime(edges[..n - 1])
      + (if edges[n - 1].level != 0 && edges[n - 1].level != 1
         then TickDiff(edges[n - 2].tick, edges[n - 1].tick) else 0)
  }

  /** Feeding one more edge is one more callback. */
  lemma {:induction false} FeedSnoc(a: Accumulator, edges: seq<Edge>, e: Edge)
    ensures Feed(a, edges + [e]) == OnEdge(Feed(a, edges), e)
    decreases |edges|
  {
    if |edges| == 0 {
      assert edges + [e] == [e];
      assert [e][1..] == [];
    } else {
      assert (edges + [e])[0] == edges[0];
      assert (edges + [e])[1..] == edges[1..] + [e];
      FeedSnoc(OnEdge(a, edges[0]), edges[1..], e);
    }
  }

  /** After a reset, any non-empty stream of edges leaves the accumulator
      armed at its first and last ticks, with the low bucket holding exactly
      the time closed by rising edges and the high bucket exactly the time
      closed by falling edges. */
  lemma {:induction false} FeedFromReset(edges: seq<Edge>)
    requires |edges| > 0
    ensures Feed(Reset(), edges).marks == Armed(edges[0].tick, edges[|edges| - 1].tick)
    ensures Feed(Reset(), edges).lowTicks == LevelTime(edges, 1)
    ensures Feed(Reset(), edges).highTicks == LevelTime(edges, 0)
    decreases |edges|
  {
    var n := |edges|;
    if n == 1 {
      assert edges[1..] == [];
    } else {
      var init := edges[..n - 1];
      assert edges == init + [edges[n - 1]];
      FeedFromReset(init);
      FeedSnoc(Reset(), init, edges[n - 1]);
    }
  }

  /** The span of a stream splits exactly into the time closed by level-0
      edges, by level-1 edges and by edges of any other level; so the two
      buckets never exceed the span, and with only levels 0 and 1 nothing
      is lost. */
  lemma {:induction false} DroppedTime(edges: seq<Edge>)
    ensures LevelTime(edges, 0) + LevelTime(edges, 1) + OtherTime(edges) == SpanTime(edges)
    ensures LevelTime(edges, 0) + LevelTime(edges, 1) <= SpanTime(edges)
    ensures (forall i :: 0 <= i < |edges| ==> edges[i].level == 0 || edges[i].level == 1) ==>
              LevelTime(edges, 0) + LevelTime(edges, 1) == SpanTime(edges)
    decreases |edges|
  {
    if |edges| >= 2 {
      DroppedTime(edges[..|edges| - 1]);
    }
  }

  /** The summed wrap-around differences land on the last tick: the span of
      a stream, taken modulo the counter width, is its last tick minus its
      first. */
  lemma {:induction false} SpanWraps(edges: seq<Edge>)
    requires |edges| > 0
    ensures (edges[0].tick + SpanTime(edges)) % TickModulus == edges[|edges| - 1].tick
    decreases |edges|
  {
    var n := |edges|;
    if n >= 2 {
      var init := edges[..n - 1];
      SpanWraps(init);
      var prev := edges[n - 2].tick;
      var d := TickDiff(prev, edges[n - 1].tick);
      var s := edges[0].tick + SpanTime(init);
      assert s % TickModulus == prev;
      assert s == (s / TickModulus) * TickModulus + prev;
      ModAddMultiple(prev + d, s / TickModulus);
      assert s + d == prev + d + (s / TickModulus) * TickModulus;
    }
  }

  /** Adding whole wraps of the counter does not change a residue. */
  lemma ModAddMultiple(x: int, k: int)
    ensures (x + k * TickModulus) % TickModulus == x % TickModulus
  {
  }

  /** Three edges from a reset: a rising edge at 0 arms, a falling edge at 10
      closes 10 ticks into the high bucket, and a rising edge at 30 closes
      20 ticks into the low bucket. */
  lemma ExampleBuckets()
    ensures Feed(Reset(), [Edge(1, 0), Edge(0, 10), Edge(1, 30)])
            == Accumulator(Armed(0, 30), 20, 10)
  {
    var es := [Edge(1, 0), Edge(0, 10), Edge(1, 30)];
    assert es[1..] == [Edge(0, 10), Edge(1, 30)];
    assert es[1..][1..] == [Edge(1, 30)];
    assert es[1..][1..][1..] == [];
  }

  /** The calibration curve of the sensor: particles per 0.01 cubic foot
      as a cubic in the low-pulse percentage. */
  function Calibrate(ratio: real): real {
    1.1 * (ratio * ratio * ratio) - 3.8 * (ratio * ratio) + 520.0 * ratio + 0.62
  }

  /** The concentration that the callers treat as a saturated sensor. */
  const Saturated: real := 1114000.62

  /** The sentinel is the calibration curve at a 100 % low-pulse ratio. */
  lemma SaturatedIsFullRatio()
    ensures Calibrate(100.0) == Saturated
  {
  }

  /** A real square is never negative. */
  lemma SquareNonNegative(z: real)
    ensures z * z >= 0.0
  {
    if z < 0.0 {
      assert z * z == (-z) * (-z);
    }
  }

  /** `x*x + x*y + y*y` bounds the quadratic factor of the cubic's
      difference quotient from below for non-negative arguments. */
  lemma QuotientPositive(x: real, y: real)
    requires 0.0 <= x && 0.0 <= y
    ensures 1.1 * (x * x + x * y + y * y) - 3.8 * (x + y) + 520.0 > 0.0
  {
    var s := x + y;
    assert x * y >= 0.0;
    SquareNonNegative(x - y);
    assert x * x + y * y >= s * s / 2.0;
    if s > 100.0 {
      assert s * s > 100.0 * s;
    }
  }

  /** The calibration curve is strictly increasing on non-negative ratios. */
  lemma CalibrateIncreasing(x: real, y: real)
    requires 0.0 <= x < y
    ensures Calibrate(x) < Calibrate(y)
  {
    QuotientPositive(x, y);
    var q := 1.1 * (x * x + x * y + y * y) - 3.8 * (x + y) + 520.0;
    assert Calibrate(y) - Calibrate(x) == (y - x) * q;
    assert (y - x) * q > 0.0;
  }

  /** On non-negative ratios the curve is at least its constant term, and it
      hits the sentinel only at a ratio of exactly 100. */
  lemma CalibrateRange(ratio: real)
    requires 0.0 <= ratio
    ensures 0.62 <= Calibrate(ratio)
    ensures Calibrate(ratio) == Saturated <==> ratio == 100.0
  {
    if ratio > 0.0 {
      CalibrateIncreasing(0.0, ratio);
    }
    if ratio < 100.0 {
      CalibrateIncreasing(ratio, 100.0);
    } else if ratio > 100.0 {
      CalibrateIncreasing(100.0, ratio);
    }
  }

  /** What `read()` returns (the GPIO number aside) and the state it leaves. */
  datatype ReadOut = ReadOut(ratio: real, conc: real, next: Accumulator)

  /** `read()`: the low-pulse percentage and calibrated concentration since
      the last read, then a reset of all four fields. */
  function Read(a: Accumulator): (r: ReadOut)
    // whichever branch is taken, everything is reset
    ensures r.next == Reset()
    // with no recorded interval both values are exactly zero, not 0.62
    ensures a.lowTicks + a.highTicks == 0 ==> r.ratio == 0.0 && r.conc == 0.0
    // otherwise the ratio is the low share of the interval, in percent
    ensures a.lowTicks + a.highTicks > 0 ==>
              r.ratio * (a.lowTicks + a.highTicks) as real == 100.0 * a.lowTicks as real
              && 0.0 <= r.ratio <= 100.0
              && r.conc == Calibrate(r.ratio)
    // the ratio is 100 exactly when nothing was counted as high time
    ensures a.lowTicks + a.highTicks > 0 ==> (r.ratio == 100.0 <==> a.highTicks == 0)
    // the concentration is never negative
    ensures 0.0 <= r.conc
  {
    var interval := a.lowTicks + a.highTicks;
    if interval > 0 then
      var ratio := a.lowTicks as real / interval as real * 100.0;
      CalibrateRange(ratio);
      ReadOut(ratio, Calibrate(ratio), Reset())
    else
      ReadOut(0.0, 0.0, Reset())
  }

  /** A read reports the saturation sentinel exactly when low time was
      recorded and no high time was. */
  lemma ReadSaturated(a: Accumulator)
    ensures Read(a).conc == Saturated <==> (a.lowTicks > 0 && a.highTicks == 0)
  {
    if a.lowTicks + a.highTicks > 0 {
      CalibrateRange(Read(a).ratio);
    }
  }

  /** One edge alone, then a read: the first edge only arms, so the ratio
      and concentration are both zero. */
  lemma SingleEdgeReadsZero(e: Edge)
    ensures Read(Feed(Reset(), [e])).ratio == 0.0
    ensures Read(Feed(Reset(), [e])).conc == 0.0
  {
    assert [e][1..] == [];
  }
}

=== FILE: pollen.dfy ===
/** The pollen alert of climacare.py: six window-averaged pollen
    concentrations turned into one of three levels.

    The level starts empty, becomes "Medio" when some channel lies strictly
    inside its middle band, is then overwritten with "Alto" when some channel
    lies strictly above the band, and finally becomes "Bajo" if still empty. */
module PollenAlert {
  import opened Results

  /** The six averaged channels, in the order the source tests them. */
  datatype PollenAverages = PollenAverages(
    alder: real, birch: real, grass: real, mugwort: real, olive: real, ragweed: real)

  datatype Level = Bajo | Medio | Alto {
    /** The text stored as the `pollen` field. */
    function Label(): string {
      match this
      case Bajo => "Bajo"
      case Medio => "Medio"
      case Alto => "Alto"
    }
  }

  /** One channel's middle band (lower, upper), both ends exclusive. */
  datatype Band = Band(lower: real, upper: real)

  /** The bands of alder, birch, grass, mugwort, olive and ragweed. */
  const Bands: seq<Band> := [
    Band(40.0, 80.0), Band(40.0, 80.0), Band(10.0, 50.0),
    Band(20.0, 30.0), Band(50.0, 200.0), Band(10.0, 50.0)
  ]

  /** The channels as a sequence aligned with `Bands`. */
  function Channels(p: PollenAverages): (cs: seq<real>)
    ensures |cs| == |Bands|
  {
    [p.alder, p.birch, p.grass, p.mugwort, p.olive, p.ragweed]
  }

  /** Some channel lies strictly inside its band. */
  predicate SomeInside(p: PollenAverages) {
    exists i :: 0 <= i < |Bands| && Bands[i].lower < Channels(p)[i] < Bands[i].upper
  }

  /** Some channel lies strictly above its band. */
  predicate SomeAbove(p: PollenAverages) {
    exists i :: 0 <= i < |Bands| && Channels(p)[i] > Bands[i].upper
  }

  /** The condition of the first `if`, as written. */
  predicate MedioTest(p: PollenAverages) {
    (40.0 < p.alder < 80.0) || (40.0 < p.birch < 80.0) || (10.0 < p.grass < 50.0)
    || (20.0 < p.mugwort < 30.0) || (50.0 < p.olive < 200.0) || (10.0 < p.ragweed < 50.0)
  }

  /** The condition of the second `if`, as written. */
  predicate AltoTest(p: PollenAverages) {
    (p.alder > 80.0) || (p.birch > 80.0) || (p.grass > 50.0)
    || (p.mugwort > 30.0) || (p.olive > 200.0) || (p.ragweed > 50.0)
  }

  /** The written conditions agree with the band table. */
  lemma TestsMatchBands(p: PollenAverages)
    ensures MedioTest(p) <==> SomeInside(p)
    ensures AltoTest(p) <==> SomeAbove(p)
  {
    var cs := Channels(p);
    if MedioTest(p) {
      if 40.0 < p.alder < 80.0 { assert Bands[0].lower < cs[0] < Bands[0].upper; }
      else if 40.0 < p.birch < 80.0 { assert Bands[1].lower < cs[1] < Bands[1].upper; }
      else if 10.0 < p.grass < 50.0 { assert Bands[2].lower < cs[2] < Bands[2].upper; }
      else if 20.0 < p.mugwort < 30.0 { assert Bands[3].lower < cs[3] < Bands[3].upper; }
      else if 50.0 < p.olive < 200.0 { assert Bands[4].lower < cs[4] < Bands[4].upper; }
      else { assert Bands[5].lower < cs[5] < Bands[5].upper; }
    }
    if AltoTest(p) {
      if p.alder > 80.0 { assert cs[0] > Bands[0].upper; }
      else if p.birch > 80.0 { assert cs[1] > Bands[1].upper; }
      else if p.grass > 50.0 { assert cs[2] > Bands[2].upper; }
      else if p.mugwort > 30.0 { assert cs[3] > Bands[3].upper; }
      else if p.olive > 200.0 { assert cs[4] > Bands[4].upper; }
      else { assert cs[5] > Bands[5].upper; }
    }
  }

  /** The three `if` statements, with the empty string as `None`. */
  function PollenLevel(p: PollenAverages): (level: Level)
    // Alto whenever some channel is above its band, whatever the Medio test says
    ensures level == Alto <==> SomeAbove(p)
    // Medio when none is above and some channel is strictly inside its band
    ensures level == Medio <==> !SomeAbove(p) && SomeInside(p)
    // Bajo otherwise, which includes values exactly at a band's ends
    ensures level == Bajo <==> !SomeAbove(p) && !SomeInside(p)
  {
    TestsMatchBands(p);
    var afterMedio := if MedioTest(p) then Some(Medio) else None;
    var afterAlto := if AltoTest(p) then Some(Alto) else afterMedio;
    match afterAlto
    case Some(level) => level
    case None => Bajo
  }

  /** A value exactly at an upper threshold triggers neither test: alder at
      80 with every other channel at zero is Bajo. */
  lemma ThresholdIsNeither()
    ensures PollenLevel(PollenAverages(80.0, 0.0, 0.0, 0.0, 0.0, 0.0)) == Bajo
  {
    var p := PollenAverages(80.0, 0.0, 0.0, 0.0, 0.0, 0.0);
    assert Channels(p) == [80.0, 0.0, 0.0, 0.0, 0.0, 0.0];
  }

  /** One channel above its band outranks another inside its band. */
  lemma AboveOutranksInside()
    ensures PollenLevel(PollenAverages(60.0, 0.0, 0.0, 0.0, 0.0, 51.0)) == Alto
  {
    var p := PollenAverages(60.0, 0.0, 0.0, 0.0, 0.0, 51.0);
    assert Channels(p)[5] > Bands[5].upper;
  }
}

=== FILE: recommendations.dfy ===
/** The recommendation rules (python/recommendations.py, repeated inline in
    climacare.py): the two day-profile labels produced by the classifier are
    turned into a list of advice strings.

    Profile 1 picks at most one base list through an if/elif chain of
    equality and substring tests, then at most one wind list through a
    second if/elif.  Profile 2 appends each of five blocks independently, in
    a fixed order, whenever its key occurs in the text.  The labels are
    opaque strings here; the classifier that produces them is not modelled. */
module Recommendations {

  /** `part` occurs in `text` starting at position `i`. */
  predicate OccursAt(text: string, part: string, i: int) {
    0 <= i && i + |part| <= |text| && text[i..i + |part|] == part
  }

  /** Python's `part in text` on strings: `part` occurs at some position. */
  predicate Contains(text: string, part: string) {
    exists i :: 0 <= i <= |text| && OccursAt(text, part, i)
  }

  /** A label in which the first character of `part` never occurs does not
      contain `part`. */
  lemma MissingFirstChar(text: string, part: string)
    requires |part| > 0 && part[0] !in text
    ensures !Contains(text, part)
  {
  }

  /** A label never contains anything longer than itself. */
  lemma LongerPart(text: string, part: string)
    requires |part| > |text|
    ensures !Contains(text, part)
  {
  }

  /** A label contains itself. */
  lemma ContainsItself(text: string)
    ensures Contains(text, text)
  {
    assert OccursAt(text, text, 0);
  }

  /** The twelve advice lists of the source, named by the rule that
      selects them. */
  datatype Advice =
    | Cold | ColdHumid | Hot | HotHumid | Humid
    | Windy | StrongWind
    | HighUv | ExtremeUv | LowPressure | ModerateAqi | UnhealthyAqi
  {
    /** The list's strings, verbatim and in order. */
    function Lines(): seq<string> {
      match this
      case Cold => [
        "Llevar una chaqueta aislante de alta calidad para mantenerse abrigado",
        "Vestir con una capa intermedia entre la camisa y el abrigo",
        "Cubrir el cuello y cabeza, y usar guantes para las manos"
      ]
      case ColdHumid => [
        "Vestir con una capa con materiales transpirables",
        "Llevar una capa exterior resistente al agua",
        "Usar calzado cálido e impermeable"
      ]
      case Hot => [
        "Optar por comidas ligeras y ricas en agua, como vegetales y frutas, y evitar platos pesados",
        "Beber uno o dos litros de agua al día y evitar el alcohol",
        "Mantener algunas partes de tu cuerpo frescas, como los pies, tobillos, muñecas, la nuca, antebrazos y la sien",
        "Vestir ropa ligera y de colores claros"
      ]
      case HotHumid => [
        "Optar por comidas ligeras y ricas en agua, como vegetales y frutas, y evitar platos pesados",
        "Beber uno o dos litros de agua al día y evitar el alcohol",
        "Mantener algunas partes de tu cuerpo frescas, como los pies, tobillos, muñecas, la nuca, antebrazos y la sien",
        "Vestir ropa ligera y de colores claros",
        "A la hora de hacer ejercicio optar por las partes más frescas del día, temprano en la mañana o al atardecer"
      ]
      case Humid => [
        "Vestir con una capa con materiales transpirables",
        "Es crucial mantener una hidratación constante",
        "A la hora de realizar actividad física optar por áreas bien ventiladas"
      ]
      case Windy => [
        "Usar chaquetas y pantalones fabricados con materiales diseñados para bloquear el viento",
        "Proteger los ojos con gafas de sol o gafas protectoras"
      ]
      case StrongWind => [
        "Usar chaquetas y pantalones fabricados con materiales diseñados para bloquear el viento",
        "En la calle, mantenterse alejado de cornisas, balcones y evitar áreas con sitios en construcción",
        "Evitar viajar en motocicleta o bicicleta;Proteger los ojos con gafas de sol o gafas protectoras"
      ]
      case HighUv => [
        "Al mediodía, mantenerse a la sombra",
        "Vestir ropa adecuada, un sombrero y gafas de sol",
        "Usar suficiente protector solar con la protección adecuada para la piel"
      ]
      case ExtremeUv => [
        "Tomar precauciones adicionales, la piel no protegida puede dañarse y quemarse rápidamente",
        "Mantenterse alejado de reflectores de rayos UV como la arena blanca o superficies brillantes",
        "Usar suficiente protector solar con la protección adecuada para la piel",
        "Evitar el sol entre las 11:00 y las 16:00"
      ]
      case LowPressure => [
        "Llevar un paraguas resistente al viento para protegerte de la lluvia",
        "Extremar las precauciones al conducir, ya que puede haber tormentas",
        "Si se es sensible a los cambios en la presión atmosférica, tomar precauciones adicionales, llevar los medicamentos necesarios y mantenerse hidratado"
      ]
      case ModerateAqi => [
        "Es seguro participar en actividades al aire libre, pero las personas extremadamente sensibles a la calidad del aire pueden considerar reducir la intensidad y duración de dichas actividades",
        "Si perteneces a un grupo sensible (como niños pequeños, personas mayores o aquellos con problemas respiratorios o cardíacos), puedes considerar limitar tu tiempo al aire libre"
      ]
      case UnhealthyAqi => [
        "Si se experimentan síntomas como irritación ocular, irritación de garganta, dificultad para respirar o problemas respiratorios, considerar reducir las actividades al aire libre",
        "El uso de mascarillas protectoras puede ser considerado, especialmente para aquellos sensibles a la calidad del aire"
      ]
    }
  }

  /** The strings of a run of advice lists, concatenated in order, as the
      source extends its result list one block at a time. */
  function Render(blocks: seq<Advice>): seq<string>
    decreases |blocks|
  {
    if |blocks| == 0 then [] else blocks[0].Lines() + Render(blocks[1..])
  }

  /** Rendering distributes over concatenation: appending lists never
      removes or reorders what was already there. */
  lemma {:induction false} RenderAppend(a: seq<Advice>, b: seq<Advice>)
    ensures Render(a + b) == Render(a) + Render(b)
    decreases |a|
  {
    if |a| == 0 {
      assert a + b == b;
    } else {
      assert (a + b)[1..] == a[1..] + b;
      RenderAppend(a[1..], b);
    }
  }

  /** A single list renders to its own lines. */
  lemma RenderSingle(a: Advice)
    ensures Render([a]) == a.Lines()
  {
    assert [a][1..] == [];
    assert Render([a]) == a.Lines() + Render([]);
  }

  /** Two lists render to the first's lines followed by the second's. */
  lemma RenderTwo(a: Advice, b: Advice)
    ensures Render([a, b]) == a.Lines() + b.Lines()
  {
    assert [a, b] == [a] + [b];
    RenderAppend([a], [b]);
    RenderSingle(a);
    RenderSingle(b);
  }

  /** One test of the chain: equality with a label or containment of a key. */
  datatype Test = Is(name: string) | Mentions(key: string)

  predicate Holds(t: Test, text: string) {
    match t
    case Is(n) => text == n
    case Mentions(k) => Contains(text, k)
  }

  /** A test and the advice list it selects. */
  datatype Rule = Rule(test: Test, advice: Advice)

  /** The profile-1 if/elif chain, in source order. */
  const BaseRules: seq<Rule> := [
    Rule(Is("Cold"), Cold),
    Rule(Mentions("Cold - High Humidity"), ColdHumid),
    Rule(Is("Hot"), Hot),
    Rule(Mentions("Hot - High Humidity"), HotHumid),
    Rule(Is("High Humidity"), Humid)
  ]

  /** The wind if/elif, in source order. */
  const WindRules: seq<Rule> := [
    Rule(Mentions("Windy"), Windy),
    Rule(Mentions("Strong Wind"), StrongWind)
  ]

  /** The five independent profile-2 blocks, in source order. */
  const WeatherRules: seq<Rule> := [
    Rule(Mentions("High UV"), HighUv),
    Rule(Mentions("Extreme UV"), ExtremeUv),
    Rule(Mentions("Low Pressure"), LowPressure),
    Rule(Mentions("Moderate AQI"), ModerateAqi),
    Rule(Mentions("Unhealthy AQI"), UnhealthyAqi)
  ]

  /** Reference semantics of an if/elif chain: the list of the first rule
      whose test holds, or none. */
  function FirstMatch(rules: seq<Rule>, text: string): seq<Advice>
    decreases |rules|
  {
    if |rules| == 0 then []
    else if Holds(rules[0].test, text) then [rules[0].advice]
    else FirstMatch(rules[1..], text)
  }

  /** The list a single rule contributes: its own when its test holds. */
  function Block(rule: Rule, text: string): seq<Advice> {
    if Holds(rule.test, text) then [rule.advice] else []
  }

  /** Reference semantics of a run of independent `if`s that append: the
      list of every rule whose test holds, in rule order. */
  function AllMatches(rules: seq<Rule>, text: string): seq<Advice>
    decreases |rules|
  {
    if |rules| == 0 then [] else Block(rules[0], text) + AllMatches(rules[1..], text)
  }

  /** A run of five independent rules, spelled out. */
  lemma AllMatchesOfFive(rules: seq<Rule>, text: string)
    requires |rules| == 5
    ensures AllMatches(rules, text)
            == Block(rules[0], text) + Block(rules[1], text) + Block(rules[2], text)
               + Block(rules[3], text) + Block(rules[4], text)
  {
    var s1, s2, s3, s4 := rules[1..], rules[2..], rules[3..], rules[4..];
    assert s1[1..] == s2 && s2[1..] == s3 && s3[1..] == s4 && s4[1..] == [];
    assert AllMatches(s4, text) == Block(rules[4], text) + [];
    assert AllMatches(s3, text) == Block(rules[3], text) + AllMatches(s4, text);
    assert AllMatches(s2, text) == Block(rules[2], text) + AllMatches(s3, text);
    assert AllMatches(s1, text) == Block(rules[1], text) + AllMatches(s2, text);
    var b0, b1, b2, b3, b4 := Block(rules[0], text), Block(rules[1], text), Block(rules[2], text),
                              Block(rules[3], text), Block(rules[4], text);
    assert b0 + b1 + b2 + b3 + b4 == b0 + (b1 + (b2 + (b3 + (b4 + []))));
  }

  /** The profile-1 chain as written: which base list, if any. */
  function BaseAdvice(category1: string): (r: seq<Advice>)
    ensures r == FirstMatch(BaseRules, category1)
  {
    var r1 := BaseRules[1..];
    var r2 := r1[1..];
    var r3 := r2[1..];
    var r4 := r3[1..];
    assert r4[1..] == [];
    if category1 == "Cold" then [Cold]
    else if Contains(category1, "Cold - High Humidity") then [ColdHumid]
    else if category1 == "Hot" then [Hot]
    else if Contains(category1, "Hot - High Humidity") then [HotHumid]
    else if category1 == "High Humidity" then [Humid]
    else []
  }

  /** The wind chain as written: which wind list, if any. */
  function WindAdvice(category1: string): (r: seq<Advice>)
    ensures r == FirstMatch(WindRules, category1)
  {
    assert WindRules[1..][1..] == [];
    if Contains(category1, "Windy") then [Windy]
    else if Contains(category1, "Strong Wind") then [StrongWind]
    else []
  }

  /** The five profile-2 blocks as written. */
  function WeatherAdvice(category2: string): (r: seq<Advice>)
    ensures r == AllMatches(WeatherRules, category2)
  {
    AllMatchesOfFive(WeatherRules, category2);
    (if Contains(category2, "High UV") then [HighUv] else [])
    + (if Contains(category2, "Extreme UV") then [ExtremeUv] else [])
    + (if Contains(category2, "Low Pressure") then [LowPressure] else [])
    + (if Contains(category2, "Moderate AQI") then [ModerateAqi] else [])
    + (if Contains(category2, "Unhealthy AQI") then [UnhealthyAqi] else [])
  }

  /** `recommendationStr` at the end: the base list, then the wind list,
      then the profile-2 blocks, each chosen by its rule table. */
  function Recommend(category1: string, category2: string): (r: seq<string>)
    ensures r == Render(FirstMatch(BaseRules, category1) + FirstMatch(WindRules, category1)
                        + AllMatches(WeatherRules, category2))
  {
    Render(BaseAdvice(category1) + WindAdvice(category1) + WeatherAdvice(category2))
  }

  /** The recommendation is the rule tables' selections rendered in order:
      each selected list kept whole, nothing else added, and its length the
      sum of the selected lists' lengths. */
  lemma RecommendFollowsRules(category1: string, category2: string)
    ensures Recommend(category1, category2)
            == Render(FirstMatch(BaseRules, category1)) + Render(FirstMatch(WindRules, category1))
               + Render(AllMatches(WeatherRules, category2))
    ensures |Recommend(category1, category2)|
            == |Render(FirstMatch(BaseRules, category1))| + |Render(FirstMatch(WindRules, category1))|
               + |Render(AllMatches(WeatherRules, category2))|
  {
    RenderAppend(BaseAdvice(category1), WindAdvice(category1));
    RenderAppend(BaseAdvice(category1) + WindAdvice(category1), WeatherAdvice(category2));
  }

  /** The wind lists are exclusive: the "Windy" list whenever the label
      mentions "Windy", the "Strong Wind" list only when it does not. */
  lemma WindExclusive(category1: string)
    ensures WindAdvice(category1) == [Windy] <==> Contains(category1, "Windy")
    ensures WindAdvice(category1) == [StrongWind]
            <==> !Contains(category1, "Windy") && Contains(category1, "Strong Wind")
    ensures WindAdvice(category1) == [] <==>
            !Contains(category1, "Windy") && !Contains(category1, "Strong Wind")
  {
  }

  /** Each profile-2 list is appended exactly when its own key occurs,
      whatever the other keys do. */
  lemma WeatherBlocksIndependent(category2: string, k: nat)
    requires k < |WeatherRules|
    ensures WeatherRules[k].advice in WeatherAdvice(category2) <==> Holds(WeatherRules[k].test, category2)
  {
  }

  /** The profile-2 blocks add at most five lists. */
  lemma WeatherBlocksAtMostFive(category2: string)
    ensures |WeatherAdvice(category2)| <= |WeatherRules|
  {
  }

  /** At most one base list and at most one wind list are ever chosen. */
  lemma ChainsPickAtMostOne(category1: string)
    ensures |BaseAdvice(category1)| <= 1 && |WindAdvice(category1)| <= 1
  {
  }

  /** "Hot - High Humidity" selects the hot-and-humid list, not the plain
      "High Humidity" list. */
  lemma HotHumidLabel()
    ensures BaseAdvice("Hot - High Humidity") == [HotHumid]
  {
    var t := "Hot - High Humidity";
    assert t != "Cold" && t != "Hot";
    MissingFirstChar(t, "Cold - High Humidity");
    ContainsItself(t);
    assert Contains(t, "Hot - High Humidity");
    assert BaseAdvice(t) == [HotHumid];
  }

  /** The hot-and-humid list has five items (the plain humid list has
      three). */
  lemma HotHumidListSize()
    ensures |HotHumid.Lines()| == 5
  {
  }

  /** A compound label such as "Cold - Windy" matches no base rule and gets
      only the wind advice. */
  lemma CompoundLabelNoBase()
    ensures BaseAdvice("Cold - Windy") == []
    ensures WindAdvice("Cold - Windy") == [Windy]
  {
    var t := "Cold - Windy";
    LongerPart(t, "Cold - High Humidity");
    LongerPart(t, "Hot - High Humidity");
    assert t != "Cold" && t != "Hot" && t != "High Humidity";
    assert OccursAt(t, "Windy", 7);
  }

  /** The profile-1 label the script is run with picks the cold-and-humid
      base list ... */
  lemma ScriptBase()
    ensures BaseAdvice("Cold - High Humidity") == [ColdHumid]
  {
    var t := "Cold - High Humidity";
    assert t != "Cold";
    ContainsItself(t);
  }

  /** ... and no wind list. */
  lemma ScriptWind()
    ensures WindAdvice("Cold - High Humidity") == []
  {
    MissingFirstChar("Cold - High Humidity", "Windy");
    MissingFirstChar("Cold - High Humidity", "Strong Wind");
  }

  /** The profile-2 label the script is run with picks only the
      moderate-AQI block. */
  lemma ScriptCategory2()
    ensures WeatherAdvice("Moderate AQI") == [ModerateAqi]
  {
    var t := "Moderate AQI";
    MissingFirstChar(t, "High UV");
    MissingFirstChar(t, "Extreme UV");
    MissingFirstChar(t, "Low Pressure");
    ContainsItself(t);
    assert Contains(t, "Moderate AQI");
    MissingFirstChar(t, "Unhealthy AQI");
    assert [] + [] + [] + [ModerateAqi] + [] == [ModerateAqi];
  }

  /** The labels the script is run with give the cold-and-humid list
      followed by the moderate-AQI list (by `RenderTwo`, its three items
      and then its two). */
  lemma ScriptOutput()
    ensures Recommend("Cold - High Humidity", "Moderate AQI") == Render([ColdHumid, ModerateAqi])
  {
    ScriptBase();
    ScriptWind();
    ScriptCategory2();
    assert [ColdHumid] + [] + [ModerateAqi] == [ColdHumid, ModerateAqi];
  }
}

=== FILE: results.dfy ===
/** Failure-carrying datatypes shared by the dust-sensor and AQI modules.
    The Python code signals failure by raising (ValueError for a negative
    concentration, UnboundLocalError when no AQI breakpoint row matches);
    the model turns each raise into an explicit `Err`. */
module Results {

  /** A value that may be absent (Python's `None`). */
  datatype Option<+T> = None | Some(value: T)

  /** Why a conversion did not produce a value. */
  datatype Error =
    | NegativeConcentration  // `pcs_to_ugm3` raises ValueError
    | NoMatchingBreakpoint   // `ugm3_to_aqi` reaches `return aqi` with `aqi` unbound

  /** Either a value or the error that replaced the source's exception. */
  datatype Result<+T> = Ok(value: T) | Err(error: Error) {

    predicate IsFailure() {
      Err?
    }

    function PropagateFailure<U>(): Result<U>
      requires Err?
    {
      Err(error)
    }

    function Extract(): T
      requires Ok?
    {
      value
    }
  }
}

=== FILE: sampling_window.dfy ===
/** The 30-minute sampling window of the main loop (climacare.py and
    dataCollectionProcessing.py).

    Every minute the loop reads each channel once, adds it to a running sum
    and counts the minute; after 30 minutes every sum is divided by 30.  The
    temperature/humidity sensor is polled until it answers something other
    than (0, 0).  Sensor and network reads, and the sleeps, are outside the
    model: the window is a function of the 30 per-minute readings it is
    given, and the polling is a function of the sensor's successive answers. */
module SamplingWindow {
  import opened Results
  import opened AirQualityIndex

  /** Minutes per window: the loop count and the divisor of every average. */
  const WindowMinutes: nat := 30

  /** The sum the loop accumulates, adding elements in order. */
  function Sum(xs: seq<real>): real
    decreases |xs|
  {
    if |xs| == 0 then 0.0 else Sum(xs[..|xs| - 1]) + xs[|xs| - 1]
  }

  /** The twelve channels summed every minute. */
  datatype Channel =
    | Temperature | Humidity | WindSpeed | Uv
    | Alder | Birch | Grass | Mugwort | Olive | Ragweed
    | Aqi | Pressure

  /** One minute's readings, one per channel; also used for running sums and
      window averages. */
  datatype Minute = Minute(
    temperature: real, humidity: real, windSpeed: real, uv: real,
    alder: real, birch: real, grass: real, mugwort: real, olive: real, ragweed: real,
    aqi: real, pressure: real)

  function Get(m: Minute, ch: Channel): real {
    match ch
    case Temperature => m.temperature
    case Humidity => m.humidity
    case WindSpeed => m.windSpeed
    case Uv => m.uv
    case Alder => m.alder
    case Birch => m.birch
    case Grass => m.grass
    case Mugwort => m.mugwort
    case Olive => m.olive
    case Ragweed => m.ragweed
    case Aqi => m.aqi
    case Pressure => m.pressure
  }

  /** The readings of one channel over a run of minutes. */
  function Column(ms: seq<Minute>, ch: Channel): (col: seq<real>)
    ensures |col| == |ms|
    ensures forall i :: 0 <= i < |ms| ==> col[i] == Get(ms[i], ch)
  {
    seq(|ms|, i requires 0 <= i < |ms| => Get(ms[i], ch))
  }

  /** All twelve running sums at zero, as at the start of a window. */
  const NoReadings: Minute := Minute(0.0, 0.0, 0.0, 0.0, 0.0, 0.0, 0.0, 0.0, 0.0, 0.0, 0.0, 0.0)

  /** One minute added to the twelve running sums. */
  function AddMinute(sums: Minute, m: Minute): (r: Minute)
    ensures forall ch :: Get(r, ch) == Get(sums, ch) + Get(m, ch)
  {
    Minute(
      sums.temperature + m.temperature, sums.humidity + m.humidity,
      sums.windSpeed + m.windSpeed, sums.uv + m.uv,
      sums.alder + m.alder, sums.birch + m.birch, sums.grass + m.grass,
      sums.mugwort + m.mugwort, sums.olive + m.olive, sums.ragweed + m.ragweed,
      sums.aqi + m.aqi, sums.pressure + m.pressure)
  }

  /** Every running sum divided by the same divisor, as at the end of a
      window. */
  function DivideBy(sums: Minute, d: real): (r: Minute)
    requires d != 0.0
    ensures forall ch :: Get(r, ch) == Get(sums, ch) / d
  {
    Minute(
      sums.temperature / d, sums.humidity / d, sums.windSpeed / d, sums.uv / d,
      sums.alder / d, sums.birch / d, sums.grass / d, sums.mugwort / d,
      sums.olive / d, sums.ragweed / d, sums.aqi / d, sums.pressure / d)
  }

  /** Extending a run of minutes by one extends each column by one. */
  lemma ColumnSnoc(ms: seq<Minute>, m: Minute, ch: Channel)
    ensures Column(ms + [m], ch) == Column(ms, ch) + [Get(m, ch)]
  {
  }

  /** The minute loop and the averaging after it: each channel's result is
      its sum over the 30 minutes divided by 30. */
  method AverageWindow(minutes: seq<Minute>) returns (avg: Minute)
    requires |minutes| == WindowMinutes
    ensures forall ch :: Get(avg, ch) == Sum(Column(minutes, ch)) / 30.0
  {
    var countMin := 0;
    var sums := NoReadings;
    while countMin < WindowMinutes
      invariant 0 <= countMin <= WindowMinutes
      invariant forall ch :: Get(sums, ch) == Sum(Column(minutes[..countMin], ch))
    {
      forall ch
        ensures Sum(Column(minutes[..countMin + 1], ch))
                == Sum(Column(minutes[..countMin], ch)) + Get(minutes[countMin], ch)
      {
        assert minutes[..countMin + 1] == minutes[..countMin] + [minutes[countMin]];
        ColumnSnoc(minutes[..countMin], minutes[countMin], ch);
        assert (Column(minutes[..countMin], ch) + [Get(minutes[countMin], ch)])[..countMin]
               == Column(minutes[..countMin], ch);
      }
      sums := AddMinute(sums, minutes[countMin]);
      countMin := countMin + 1;
    }
    assert minutes[..countMin] == minutes;
    avg := DivideBy(sums, 30.0);
  }

  /** A sum of `|xs|` copies of `v` is `|xs| · v`. */
  lemma {:induction false} SumConstant(xs: seq<real>, v: real)
    requires forall i :: 0 <= i < |xs| ==> xs[i] == v
    ensures Sum(xs) == |xs| as real * v
    decreases |xs|
  {
    if |xs| > 0 {
      SumConstant(xs[..|xs| - 1], v);
    }
  }

  /** A sum of values within [lo, hi] lies within [|xs|·lo, |xs|·hi]. */
  lemma {:induction false} SumBounds(xs: seq<real>, lo: real, hi: real)
    requires forall i :: 0 <= i < |xs| ==> lo <= xs[i] <= hi
    ensures |xs| as real * lo <= Sum(xs) <= |xs| as real * hi
    decreases |xs|
  {
    if |xs| > 0 {
      var init := xs[..|xs| - 1];
      var n := |init| as real;
      SumBounds(init, lo, hi);
      assert Sum(xs) == Sum(init) + xs[|xs| - 1];
      assert |xs| as real * lo == n * lo + lo;
      assert |xs| as real * hi == n * hi + hi;
    }
  }

  /** A window in which a channel reads the same value every minute
      averages to exactly that value. */
  lemma ConstantWindow(minutes: seq<Minute>, ch: Channel, v: real)
    requires |minutes| == WindowMinutes
    requires forall i :: 0 <= i < |minutes| ==> Get(minutes[i], ch) == v
    ensures Sum(Column(minutes, ch)) / 30.0 == v
  {
    SumConstant(Column(minutes, ch), v);
  }

  /** A window average never leaves the range of the minute readings. */
  lemma WindowWithinRange(minutes: seq<Minute>, ch: Channel, lo: real, hi: real)
    requires |minutes| == WindowMinutes
    requires forall i :: 0 <= i < |minutes| ==> lo <= Get(minutes[i], ch) <= hi
    ensures lo <= Sum(Column(minutes, ch)) / 30.0 <= hi
  {
    SumBounds(Column(minutes, ch), lo, hi);
  }

  /** When every minute's index came out of the conversion chain (so lies
      in [0, 500]), the window's index lies in [0, 500] too, and its
      category (dataCollectionProcessing.py) is Hazardous only from 301 on. */
  lemma WindowCategory(minutes: seq<Minute>)
    requires |minutes| == WindowMinutes
    requires forall i :: 0 <= i < |minutes| ==> 0.0 <= minutes[i].aqi <= MaxIndex
    ensures 0.0 <= Sum(Column(minutes, Aqi)) / 30.0 <= MaxIndex
    ensures AqiCategory(Sum(Column(minutes, Aqi)) / 30.0) == Hazardous
            <==> Sum(Column(minutes, Aqi)) / 30.0 >= 301.0
  {
    WindowWithinRange(minutes, Aqi, 0.0, MaxIndex);
  }

  /** The "not ready yet" answer of the temperature/humidity sensor. */
  predicate NotReady(reading: (real, real)) {
    reading.0 == 0.0 && reading.1 == 0.0
  }

  /** The retry loop around the temperature/humidity sensor, over the
      sensor's successive answers: it keeps asking while both values are
      zero.  Returns the accepted reading and how
      many answers were consumed; `None` when every given answer was
      (0, 0) (the source would keep polling). */
  method PollTemperatureHumidity(answers: seq<(real, real)>) returns (reading: Option<(real, real)>, tries: nat)
    ensures tries <= |answers|
    ensures forall i :: 0 <= i < tries - 1 ==> NotReady(answers[i])
    ensures reading.Some? ==> 0 < tries && reading.value == answers[tries - 1] && !NotReady(reading.value)
    ensures reading.None? ==> tries == |answers| && forall i :: 0 <= i < |answers| ==> NotReady(answers[i])
  {
    var temp, humidity := 0.0, 0.0;
    tries := 0;
    while temp == 0.0 && humidity == 0.0 && tries < |answers|
      invariant tries <= |answers|
      invariant forall i :: 0 <= i < tries - 1 ==> NotReady(answers[i])
      invariant 0 < tries ==> (temp, humidity) == answers[tries - 1]
      invariant tries == 0 ==> temp == 0.0 && humidity == 0.0
    {
      temp, humidity := answers[tries].0, answers[tries].1;
      tries := tries + 1;
    }
    if temp == 0.0 && humidity == 0.0 {
      reading := None;
    } else {
      reading := Some((temp, humidity));
    }
  }
}

=== FILE: unit_conversion.dfy ===
/** `pcs_to_ugm3`: particles per 0.01 cubic foot to micrograms per cubic
    metre, under the spherical-particle approximation the source uses
    (density 1.65e12 µg/m³, radius 0.44 µm, 3531.5 as the volume factor). */
module UnitConversion {
  import opened Results

  /** `math.pi`, written as the shortest decimal of the double it holds. */
  const Pi: real := 3.141592653589793

  /** Assumed density of a PM2.5 particle, µg/m³ (1.65 × 10^12). */
  const Density: real := 1650000000000.0

  /** Assumed radius of a PM2.5 particle, m (0.44 × 10^-6). */
  const Radius: real := 0.00000044

  /** Volume of one particle, 4/3·π·r³. */
  const Volume: real := (4.0 / 3.0) * Pi * (Radius * Radius * Radius)

  /** Mass of one particle, density × volume, µg. */
  const Mass: real := Density * Volume

  /** The factor the count is multiplied by: 3531.5 × mass. */
  const Factor: real := 3531.5 * Mass

  /** The conversion factor is strictly positive. */
  lemma FactorPositive()
    ensures Factor > 0.0
  {
  }

  /** `pcs_to_ugm3`: a negative count is refused with ValueError; any other
      count is scaled by the fixed positive factor. */
  function PcsToUgm3(pcf: real): (r: Result<real>)
    ensures r.Err? <==> pcf < 0.0
    ensures r.Err? ==> r.error == NegativeConcentration
    ensures r.Ok? ==> 0.0 <= r.value && r.value == pcf * Factor
    ensures r.Ok? && pcf > 0.0 ==> r.value > 0.0
  {
    if pcf < 0.0 then Err(NegativeConcentration)
    else Ok(pcf * 3531.5 * Mass)
  }

  /** Inverse of the conversion on its domain: µg/m³ back to particles per
      0.01 cubic foot. */
  function Ugm3ToPcs(ugm3: real): real {
    ugm3 / Factor
  }

  /** Converting and converting back gives the original count, and every
      non-negative mass concentration is the image of exactly one count. */
  lemma RoundTrip(pcf: real, ugm3: real)
    ensures pcf >= 0.0 ==> Ugm3ToPcs(PcsToUgm3(pcf).value) == pcf
    ensures ugm3 >= 0.0 ==> Ugm3ToPcs(ugm3) >= 0.0 && PcsToUgm3(Ugm3ToPcs(ugm3)) == Ok(ugm3)
  {
    FactorPositive();
    if ugm3 >= 0.0 {
      var p := ugm3 / Factor;
      assert p * Factor == ugm3;
      assert p >= 0.0;
      assert p * 3531.5 * Mass == ugm3;
      assert Ugm3ToPcs(ugm3) == p;
      assert PcsToUgm3(p).Ok?;
      assert PcsToUgm3(p).value == ugm3;
      assert PcsToUgm3(p) == Ok(ugm3);
    }
  }

  /** Zero maps to zero and minus one is refused. */
  lemma ZeroAndNegative()
    ensures PcsToUgm3(0.0) == Ok(0.0)
    ensures PcsToUgm3(-1.0) == Err(NegativeConcentration)
  {
  }

  /** The conversion is additive and homogeneous on its domain. */
  lemma Linear(a: real, b: real, k: real)
    requires 0.0 <= a && 0.0 <= b && 0.0 <= k
    ensures PcsToUgm3(a + b).value == PcsToUgm3(a).value + PcsToUgm3(b).value
    ensures PcsToUgm3(k * a).value == k * PcsToUgm3(a).value
  {
  }

  /** The conversion is strictly increasing on its domain. */
  lemma Monotone(a: real, b: real)
    requires 0.0 <= a < b
    ensures PcsToUgm3(a).value < PcsToUgm3(b).value
  {
    FactorPositive();
    assert PcsToUgm3(b).value - PcsToUgm3(a).value == (b - a) * Factor;
  }
}
